=== FILE: README.md ===
# go-migration reconciler, modelled in Dafny

This project models the migration reconciler of the Go package `migration`
(`migration.go`). The reconciler applies SQL change-scripts ("migration
items") to a database exactly once each. It keeps a ledger table of the
`(project, filename)` pairs it has applied.

A run has three steps:

- **Bootstrap.** Probe the ledger table with a `SELECT`. If the probe fails,
  create the table and treat nothing as applied.
- **Read the ledger.** Collect the applied identifiers: the filename of
  every row the query's iteration delivers, under any project. An iteration
  that ends early because the cursor failed goes unnoticed, because the code
  never checks `rows.Err()`.
- **Apply.** Open one transaction and walk the items in the given order.
  Skip an item whose identifier was read as applied. Otherwise run its
  script, then insert its ledger row. On the first failure, roll back and
  return the error. When the loop ends, commit, ignore the commit's result,
  and return nil.

The model is functional. The database is an immutable `Store<S>`:

- its ledger tables by name, each a set of `Row(project, filename)`;
- the rest of the schema, as an opaque value of type `S`.

The database driver is an environment `Env<S>` with two parts:

- `run` executes a script's text against the schema and may reject it;
- `fails` says whether a ledger-side call fails for an outside reason. It
  covers the probe, `CREATE TABLE`, the query, the cursor's advance onto each
  row (`Next`), the row scan, `Begin`, `INSERT` and `Commit`.

The ledger's own definition forces two failures: a `CREATE TABLE` on an
existing table fails, and an `INSERT` of a row already present breaks the
primary key. The transaction is a snapshot of the store. Rollback restores
the snapshot, and commit replaces it with the working copy.

A run returns a `Run`. Besides the status and the final store, it records
the statements the transaction received (`trace`) and whether the commit
took effect (`committed`). The properties below are stated in those terms.

Files:

- `sql.dfy` (module `Sql`): the three SQL texts the reconciler builds by
  splicing in the table name, unquoted.
- `store.dfy` (module `Store`): rows, the store, the environment, and the
  primitive ledger operations.
- `migration.dfy` (module `Migration`): `createMigrationTable`,
  `getInsertedFiles`, the loop of `doUpgrade`, `doUpgrade` itself, and the
  entry points `UpgradeItems`, `UpgradeDir` and `Upgrade`. It also holds the
  reference definitions a run is measured against: `Pending`, `Statements`,
  `RowsOf` and `RunScripts`.
- `properties.dfy` (module `Properties`): lemmas relating runs. They cover
  exactly-once, atomicity, idempotence, bootstrap, the ignored commit result,
  the filename-only skip set, and concrete scenarios.

Behaviour of the code worth noting:

- **Order.** Items run in the order supplied; `doUpgrade` does not sort
  them. Lexicographic order comes only from the directory listing, which is
  outside the model. `GivenOrderNotSorted` shows `001_init` running before
  `000_setup` when it is listed first.
- **Probe failure.** Any probe failure leads to a `CREATE TABLE` attempt. If
  the table in fact exists, that attempt fails and the run returns its error
  (`CreateFailed` in the model).
- **Skip set.** The applied set holds filenames from all projects. A row
  recorded by another project therefore suppresses the item
  (`AnyProjectRowSkips`).
- **Unique identifiers.** Uniqueness within one call is not checked. A
  duplicate runs twice and then hits the primary key, so the whole run is
  rolled back (`DuplicateNeverCommits`, `DuplicateRunsTwice`).
- **Commit errors.** A failed commit is still reported as success
  (`CommitResultIgnored`).
- **Partial ledger read.** A row the iteration does not deliver is not
  counted as applied, and no error is raised. Its item runs again, and if the
  row belonged to another project the run records it a second time
  (`LostRowRunsAgain`). Exactly-once holds only for a read that delivers
  every row (`ReadsAll`).
- **Error values.** On a script or insert failure the caller gets the
  driver's error unchanged. The failing item is named only in a log line.
- **Ledger table after a failure.** The ledger table is created outside the
  transaction, so a failed first run leaves it in place, empty
  (`FreshDatabaseBadScript`). A run that fails after the fetch leaves exactly
  the bootstrapped store; a failed fetch leaves the store untouched.

## Model

| member | source | states |
|---|---|---|
| Sql.SelectSplicesName | migration.go:94 | The probe/read statement is `SELECT * FROM `, then the table name character for character, unquoted and unchecked, then ` ORDER BY filename`. |
| Sql.InsertSplicesName | migration.go:151 | The ledger insert is `INSERT INTO `, then the table name verbatim, then the column list with the bound parameters `$1, $2`. |
| Sql.SelectNamesTable | migration.go:94 | The probe/read statement determines the table name: two names give two different `SELECT` texts. |
| Sql.InsertNamesTable | migration.go:151 | The ledger `INSERT` text determines the table name it writes to. |
| Sql.CreateNamesTableAndKey | migration.go:85 | The DDL starts with `CREATE TABLE <name>` and names its primary key `<name>_pk` on `(project, filename)`. |
| Store.Filenames | migration.go:109-116 | The applied map's keys are exactly the filenames of the ledger rows, whatever project recorded them. |
| Store.RowsRead | migration.go:102-116 | The rows the reconciler reads are the ledger rows whose cursor advance did not fail. The read is the whole ledger exactly when no advance fails, since a failed advance only ends the loop. |
| Store.ProbeOk | migration.go:94-95 | The probe `SELECT * FROM <table>` always fails when the ledger table is missing; on an existing table it fails only when the database refuses it. Any failure, whatever its cause, is taken as "no table". |
| Store.Bootstrapped | migration.go:94-99 | After bootstrap the ledger table exists and keeps its rows (empty if it was created), with the schema and every other table unchanged. |
| Store.InsertRow | migration.go:151-156 | The ledger insert succeeds exactly when the table exists, the `(project, filename)` row is not already there, and the database does not refuse; on success exactly that row is added. |
| Store.RunScript | migration.go:143-148 | Running an item's content fails exactly when the database rejects the script; it changes the schema only, never the ledger. |
| Migration.Pending | migration.go:135-140 | An item is pending exactly when it is among the items and its identifier is not in the applied set. |
| Migration.CreateMigrationTable | migration.go:83-88 | Creation fails when the table already exists or the database refuses; otherwise the table exists and is empty. |
| Migration.GetInsertedFiles | migration.go:90-120 | When the probe fails, the result is the empty map with the table created, or the create error. When the probe succeeds: a failed query gives the fetch error. Otherwise the run aborts fatally exactly when some row is delivered and scanning fails, and in every other case the result is the filenames of the rows delivered, with the store untouched. |
| Migration.ApplyAll | migration.go:135-157 | A completed loop sent each pending item's script and insert, in input order. A stopped loop sent a prefix of those statements that ends at the failing item's script or insert. Why and where it stopped is stated by `StoppedCause` and `StoppedFirst`. |
| Migration.StoppedCause | migration.go:135-156 | A loop stops at pending item `k` only for a real failure: item `k`'s script was rejected after the earlier scripts, or it was accepted and its insert was refused against the ledger as the earlier items left it. |
| Migration.StoppedFirst | migration.go:135-156 | A loop stops at its first failure: every pending item before item `k` had its script accepted and its insert go through, each against the schema and ledger the items before it left. |
| Migration.CompletedNeverStops | migration.go:135-157 | A loop that completes stops at no pending item: no script it sent was rejected and no insert refused. With `StoppedCause`, a loop stops exactly when some pending item fails. |
| Migration.CompletedEffect | migration.go:135-157 | A completed loop adds one `(project, id)` row per pending item to the ledger, and leaves the schema as the pending scripts make it when run in order. |
| Migration.DoUpgrade | migration.go:122-162 | The statements sent are always a prefix of the pending items' scripts and inserts; on success they are all of them. A committed run returned nil, added exactly the pending rows and applied exactly the pending scripts. When it returns nil and when it commits are stated by `NoFailureReturnsNil` and `OkCommitsUnlessCommitFails`. A run that does not commit leaves the store exactly as the fetch left it: with the ledger table created empty if it was missing, or untouched when the fetch failed. A script or insert error comes with the trace ending at that item's statement. |
| Migration.UpgradeItems | migration.go:76-81 | Applying an explicit item list is one run over exactly those items, in that order: on success each item whose identifier the rows read lacked had its script and insert sent, and a committed run adds exactly those items' rows. |
| Migration.ReadItems | migration.go:58-69 | Reading succeeds with one item per entry (id = entry name, content = the file at directory + name) or fails with the first unreadable path, all earlier files having been read. |
| Migration.UpgradeDir | migration.go:49-73 | A listing error, or the read error for the first unreadable file, is returned with nothing executed and the store unchanged; otherwise the run is over the items read from the directory. |
| Migration.Upgrade | migration.go:38-45 | The default entry point is the directory entry point over `migrations/` with ledger table `migration_tbl`; it writes only that table, only with rows of the given project, and a listing error is returned with nothing executed. |
| Properties.RunsExactlyTheUnapplied | migration.go:102-143 | An item's script is sent only if its identifier was not among the ledger rows read at the start of the run; on a successful run every such item's script is sent. When the read delivers every row, a script is sent only if the ledger lacked its identifier. |
| Properties.ScriptFailureStopsTheRun | migration.go:143-148 | When item k's script fails, every earlier pending item ran and was recorded (`Recorded`), item k's script was the last statement, and no later item was attempted. |
| Properties.RecordFailureStopsTheRun | migration.go:150-156 | When item k's ledger insert fails, it comes right after item k's script, all earlier pending items ran and were recorded (`Recorded`), and nothing later was attempted. |
| Properties.FailureCause | migration.go:143-156 | A reported script or insert failure is a real one, at pending item k, half of one less than the trace's length. Every earlier pending item ran and was recorded. Then either that item's script was rejected, or it was accepted and its insert was refused, against the bootstrapped ledger plus the earlier items' rows. |
| Properties.NoFailureReturnsNil | migration.go:122-161 | A run returns nil exactly when the ledger is read, `Begin` succeeds and no pending item's script is rejected nor its insert refused. |
| Properties.OkCommitsUnlessCommitFails | migration.go:135-161 | A run that returns nil ran every pending script successfully, and its work persists exactly when the commit of the bootstrapped ledger plus the pending rows, with the scripts' schema, does not fail. |
| Properties.ReliableFetch | migration.go:90-120 | On a database that never fails, the ledger is read in full: the applied set is every recorded filename, and the table is created when absent. |
| Properties.ReliableRunCommits | migration.go:122-161 | On a database that never fails and accepts every script, a run whose pending identifiers are distinct returns nil and commits. |
| Properties.FailureRollsBack | migration.go:143-156 | A run that does not return nil leaves the ledger rows and the schema as they were before `Begin`. The store is exactly the bootstrapped one after a successful fetch, and the original one when the fetch failed. |
| Properties.BeginFailureRunsNothing | migration.go:130-133 | A `Begin` failure is returned before any item runs, with only the bootstrap's effect on the store. |
| Properties.CommitResultIgnored | migration.go:159-161 | A run whose commit always fails returns the same status, after the same statements, as the same run with a working commit, and persists nothing. |
| Properties.LoopIgnoresCommit | migration.go:135-157 | The loop never consults the commit's outcome. |
| Properties.CommittedRecordsEveryItem | migration.go:135-159 | After a committed run, every item's identifier is in the ledger: it was either read as applied or recorded by this run. |
| Properties.NothingPendingIsNoop | migration.go:94-161 | With the ledger table present and no item pending, a run sends no statement and leaves the store exactly as it was, whether or not its commit takes effect. |
| Properties.Idempotent | migration.go:102-159 | After a committed run, running the same items again sends no statement and leaves the store exactly as it was, when the second run's read delivers every row. |
| Properties.ProbeFailureBootstraps | migration.go:94-99 | When the probe fails: a failed create is returned with nothing else done and no transaction begun; a successful create yields the empty applied set, so every item is pending. |
| Properties.BootstrapOnce | migration.go:94-99 | A successful run leaves the ledger table in place, so a later run never creates another table. |
| Properties.CompletedIsDuplicateFree | migration.go:135-156 | A completed loop had pending items with pairwise distinct identifiers, none already recorded for this project. |
| Properties.ReliableLoopCompletes | migration.go:135-156 | Conversely, with a database that never fails, the loop completes whenever the pending identifiers are distinct and unrecorded for this project. |
| Properties.DuplicateNeverCommits | migration.go:135-156 | An identifier listed twice and not read as applied makes the run fail, leaving the ledger as before, because the skip set is not updated inside the loop. |
| Properties.AnyProjectRowSkips | migration.go:109-140 | A ledger row that is read, under any project, keeps every item with its identifier from running, and no row for this project is added. |
| Properties.GivenOrderNotSorted | migration.go:135-143 | Items run in the order supplied: `001_init`, `002_add_users`, `000_setup` run in that order. |
| Properties.FreshDatabase | migration.go:83-159 | On a fresh database two good scripts both run and commit, and the ledger holds exactly their two rows. |
| Properties.FreshDatabaseBadScript | migration.go:94-148 | On a fresh database a rejected script makes the run fail at that item; the ledger table exists but is empty, and the schema is unchanged. |
| Properties.LostRowRunsAgain | migration.go:102-119 | A row for `b.sql` recorded by another project but not delivered by the iteration goes unnoticed: `b.sql` runs again, commits, and is recorded a second time for this project. |
| Properties.PartlyApplied | migration.go:135-157 | With `a.sql` already recorded, only `b.sql` runs and is recorded. |
| Properties.DuplicateRunsTwice | migration.go:135-156 | Two items named `x.sql` on a reliable database: both scripts run, the second insert clashes with the first, and the store is rolled back. |

## Left out

- The `database/sql` driver and real SQL semantics. Scripts act on an opaque schema through an oracle, and ledger-side calls fail through an oracle.
- Scripts that touch the ledger table itself. A script is assumed to change only the opaque schema.
- `Rollback`'s own result, which the code ignores. Rollback is modelled as always restoring the snapshot taken at `Begin`.
- A commit that fails after persisting its changes. A failed commit is modelled as persisting nothing.
- Logging and `SetLog`. The `Println` calls have no effect on the outcome. `SetLog` can install a logger whose `Fatal` returns; that case is not modelled (see the next line).
- `log.Fatal` on a scan error. It is modelled as the `Fatal` status with the store unchanged, which is what the default logger does by ending the process; the process exit itself is not modelled. A logger installed through `SetLog` whose `Fatal` returns would let the loop go on and record the partly scanned row's filename; the model does not cover that.
- `MigrationDate` timestamps. Only the map's keys are used, so the applied map is a set of filenames.
- `ioutil.ReadDir`/`ReadFile`. They are modelled as a file-system oracle returning a listing or a file's content. Their sorting and the distinction between files and subdirectories are library behaviour.
- The text of Go error values. Errors are modelled as constructors naming the step that failed. The Go caller gets the driver's or file system's error unchanged, and cannot tell a script failure from an insert, `Begin` or `CREATE TABLE` failure. The identifier in `ScriptFailed(id)` and `RecordFailed(id)` stands for the item named in the dropped log line, not for anything in the returned error.
- Migration.GetInsertedFiles: which rows an iteration fails to deliver is left to the oracle, per row. The model allows any subset of the ledger to be lost, not only the rows after the failure point in filename order.
- The rows the query returns are taken to be exactly the table's rows; a concurrent writer between the probe and the query is not modelled.
- Concurrent runs (two processes bootstrapping or inserting at once). This is outside the code's own logic.
- `migration_test.go` (a live-database check that a DDL call errors) and `doc.go` (a package comment).

=== FILE: migration.dfy ===
/**
 The migration reconciler: bootstrap the ledger table, read the identifiers it
 already records, then run every item not yet recorded inside one
 transaction, recording each after its script succeeds. A run is a pure
 function from the environment, the configuration, the store and the items to
 a `Run`: what the caller gets back, the store afterwards, and the statements
 the transaction received.
 */
module Migration {
  import opened Sql
  import opened Store

  /** The ledger table `Upgrade` uses. */
  const DefaultTable := "migration_tbl"

  /** The directory `Upgrade` reads its scripts from (a prefix, hence the slash). */
  const DefaultDirectory := "migrations/"

  datatype Config = Config(project: string, tableName: string)

  /** One candidate script: its identifier (the idempotency key) and its SQL text. */
  datatype Item = Item(id: string, content: string)

  /**
   Why a run stopped. The caller of the Go code receives only the driver's or
   the file system's error value, the same for every database failure; the
   constructors name the step that failed, and the identifier carried by
   `ScriptFailed` and `RecordFailed` stands for the item the code names in
   its log line, not for anything in the returned error.
   */
  datatype Error =
    | ListFailed(directory: string)   // the directory could not be listed
    | ReadFailed(path: string)        // "Error reading <path>: ..."
    | CreateFailed                    // the ledger table could not be created
    | FetchFailed                     // "Error fetching already migrated files"
    | BeginFailed
    | ScriptFailed(id: string)        // the item's script was rejected
    | RecordFailed(id: string)        // the item's ledger insert was rejected

  /** What the caller sees: nil, an error, or a process terminated by a fatal log call. */
  datatype Status = Ok | Err(error: Error) | Fatal

  /** A statement sent inside the transaction: an item's script, or its ledger insert. */
  datatype Event = Script(id: string) | Record(row: Row)

  /** The result of reading the ledger: the applied identifiers and the store after bootstrap. */
  datatype Fetch<S> = Fetched(applied: set<string>, store: Store<S>) | FetchErr(error: Error) | FetchFatal

  /** The result of the loop over the items inside the transaction. */
  datatype Applied<S> = Completed(tx: Store<S>, trace: seq<Event>) | Stopped(error: Error, trace: seq<Event>)

  /**
   The result of a run: the status returned, the store afterwards, the
   statements the transaction received, and whether its commit took effect.
   */
  datatype Run<S> = Run(status: Status, store: Store<S>, trace: seq<Event>, committed: bool)

  /** The file system as the directory entry point uses it. */
  datatype Fs = Fs(readDir: string -> Option<seq<string>>, readFile: string -> Option<string>)

  datatype Read = Items(items: seq<Item>) | Unreadable(error: Error)

  // ---------------------------------------------------------------------------
  // Reference definitions the run is measured against
  // ---------------------------------------------------------------------------

  /** The items not yet applied, in their given order. */
  function Pending(items: seq<Item>, applied: set<string>): (p: seq<Item>)
    ensures forall it :: it in p <==> it in items && it.id !in applied
    ensures |p| <= |items|
  {
    if |items| == 0 then []
    else if items[0].id in applied then Pending(items[1..], applied)
    else [items[0]] + Pending(items[1..], applied)
  }

  /** The items a run will try: those whose identifier is missing from the ledger rows it reads at the start. */
  function ToApply<S>(env: Env<S>, cfg: Config, st: Store<S>, items: seq<Item>): seq<Item>
  {
    Pending(items, Filenames(RowsRead(env, st, cfg.tableName)))
  }

  /** Each item's script followed by its ledger insert, item after item. */
  function Statements(project: string, items: seq<Item>): (ev: seq<Event>)
    ensures |ev| == 2 * |items|
  {
    if |items| == 0 then []
    else [Script(items[0].id), Record(Row(project, items[0].id))] + Statements(project, items[1..])
  }

  /** The ledger rows recording `items` for `project`. */
  function RowsOf(project: string, items: seq<Item>): (rows: set<Row>)
    ensures forall it :: it in items ==> Row(project, it.id) in rows
    ensures forall r :: r in rows ==> r.project == project && exists it :: it in items && it.id == r.filename
  {
    if |items| == 0 then {}
    else {Row(project, items[0].id)} + RowsOf(project, items[1..])
  }

  /** The schema after running the scripts of `items` one after the other, if all succeed. */
  function RunScripts<S>(env: Env<S>, s: S, items: seq<Item>): Option<S>
  {
    if |items| == 0 then Some(s)
    else match env.run(s, items[0].content)
      case None => None
      case Some(s1) => RunScripts(env, s1, items[1..])
  }

  /** `tables` with `rows` added to `table`, when that table exists. */
  function AddRows(tables: map<string, set<Row>>, table: string, rows: set<Row>): map<string, set<Row>>
  {
    if table in tables then tables[table := tables[table] + rows] else tables
  }

  /** Adding two batches of rows is adding their union. */
  lemma AddRowsTwice(tables: map<string, set<Row>>, table: string, first: set<Row>, second: set<Row>)
    ensures AddRows(AddRows(tables, table, first), table, second) == AddRows(tables, table, first + second)
  {
    if table in tables {
      assert tables[table] + first + second == tables[table] + (first + second);
      assert tables[table := tables[table] + first][table := tables[table] + first + second]
          == tables[table := tables[table] + (first + second)];
    }
  }

  /**
   `trace` ends with the statement `e` reports (a failed insert comes right
   after its item's script); errors raised outside the loop come with no
   statement at all.
   */
  predicate Explains(e: Error, trace: seq<Event>, project: string)
  {
    match e
    case ScriptFailed(id) => |trace| > 0 && trace[|trace| - 1] == Script(id)
    case RecordFailed(id) =>
      |trace| > 1 && trace[|trace| - 2] == Script(id) && trace[|trace| - 1] == Record(Row(project, id))
    case _ => trace == []
  }

  // ---------------------------------------------------------------------------
  // The reconciler
  // ---------------------------------------------------------------------------

  /**
   Creates the ledger table. It fails when the table already exists or the
   database refuses; otherwise the table exists and is empty.
   */
  function CreateMigrationTable<S>(env: Env<S>, cfg: Config, st: Store<S>): (r: Option<Store<S>>)
    ensures r.Some? <==> cfg.tableName !in st.tables && !env.fails(st, Exec(CreateSql(cfg.tableName), []))
    ensures r.Some? ==> r.value == Bootstrapped(st, cfg.tableName) && Rows(r.value, cfg.tableName) == {}
  {
    if cfg.tableName in st.tables || env.fails(st, Exec(CreateSql(cfg.tableName), [])) then None
    else Some(st.(tables := st.tables[cfg.tableName := {}]))
  }

  /**
   Probes the ledger; if the probe fails the table is created and nothing
   counts as applied, otherwise the applied set is the filename of every row
   the iteration delivers, whichever project recorded it. An iteration that
   stops early is not noticed. A row that cannot be scanned aborts the
   process; when no row is delivered, nothing is scanned.
   */
  function GetInsertedFiles<S>(env: Env<S>, cfg: Config, st: Store<S>): (f: Fetch<S>)
    ensures f.Fetched? ==>
      && f.store == Bootstrapped(st, cfg.tableName)
      && f.applied == Filenames(RowsRead(env, st, cfg.tableName))
    ensures !ProbeOk(env, st, cfg.tableName) ==>
      && (f.Fetched? <==> CreateMigrationTable(env, cfg, st).Some?)
      && (f.Fetched? ==> f.applied == {})
      && (!f.Fetched? ==> f == FetchErr(CreateFailed))
    ensures ProbeOk(env, st, cfg.tableName) && env.fails(st, Query(SelectSql(cfg.tableName))) ==>
      f == FetchErr(FetchFailed)
    ensures ProbeOk(env, st, cfg.tableName) && !env.fails(st, Query(SelectSql(cfg.tableName))) ==>
      && (f.FetchFatal? <==> RowsRead(env, st, cfg.tableName) != {} && env.fails(st, Scan(SelectSql(cfg.tableName))))
      && (!f.FetchFatal? ==> f == Fetched(Filenames(RowsRead(env, st, cfg.tableName)), st))
  {
    var t := cfg.tableName;
    if !ProbeOk(env, st, t) then
      match CreateMigrationTable(env, cfg, st)
      case None => FetchErr(CreateFailed)
      case Some(st1) => Fetched({}, st1)
    else if env.fails(st, Query(SelectSql(t))) then FetchErr(FetchFailed)
    else
      var read := RowsRead(env, st, t);
      if read != {} && env.fails(st, Scan(SelectSql(t))) then FetchFatal
      else Fetched(Filenames(read), st)
  }

  /**
   The loop of the transaction: skip items whose identifier is applied, run
   the others' scripts in order, each followed by its ledger insert, and stop
   at the first failure.
   */
  function ApplyAll<S>(env: Env<S>, cfg: Config, applied: set<string>, tx: Store<S>, items: seq<Item>): (a: Applied<S>)
    decreases |items|
    ensures a.Completed? ==>
      a.trace == Statements(cfg.project, Pending(items, applied))
    ensures a.Stopped? ==>
      && (a.error.ScriptFailed? || a.error.RecordFailed?)
      && a.trace <= Statements(cfg.project, Pending(items, applied))
      && Explains(a.error, a.trace, cfg.project)
  {
    if |items| == 0 then Completed(tx, [])
    else
      var it := items[0];
      if it.id in applied then ApplyAll(env, cfg, applied, tx, items[1..])
      else
        var row := Row(cfg.project, it.id);
        match RunScript(env, tx, it.content)
        case None => Stopped(ScriptFailed(it.id), [Script(it.id)])
        case Some(tx1) =>
          match InsertRow(env, tx1, cfg.tableName, row)
          case None => Stopped(RecordFailed(it.id), [Script(it.id), Record(row)])
          case Some(tx2) =>
            match ApplyAll(env, cfg, applied, tx2, items[1..])
            case Completed(tx3, rest) => Completed(tx3, [Script(it.id), Record(row)] + rest)
            case Stopped(e, rest) => Stopped(e, [Script(it.id), Record(row)] + rest)
  }

  /**
   A loop that completes leaves the pending items' rows added to the ledger
   and the schema as their scripts, run in order, make it.
   */
  lemma {:induction false} CompletedEffect<S>(env: Env<S>, cfg: Config, applied: set<string>, tx: Store<S>, items: seq<Item>)
    requires ApplyAll(env, cfg, applied, tx, items).Completed?
    ensures ApplyAll(env, cfg, applied, tx, items).tx.tables
            == AddRows(tx.tables, cfg.tableName, RowsOf(cfg.project, Pending(items, applied)))
    ensures RunScripts(env, tx.schema, Pending(items, applied)) == Some(ApplyAll(env, cfg, applied, tx, items).tx.schema)
    decreases |items|
  {
    var t := cfg.tableName;
    if |items| == 0 {
      if t in tx.tables {
        assert tx.tables[t] + {} == tx.tables[t];
        assert tx.tables[t := tx.tables[t]] == tx.tables;
      }
    } else if items[0].id in applied {
      CompletedEffect(env, cfg, applied, tx, items[1..]);
    } else {
      var it := items[0];
      var row := Row(cfg.project, it.id);
      var tx1 := RunScript(env, tx, it.content).value;
      var tx2 := InsertRow(env, tx1, t, row).value;
      CompletedEffect(env, cfg, applied, tx2, items[1..]);
      var rest := Pending(items[1..], applied);
      assert Pending(items, applied) == [it] + rest;
      assert RowsOf(cfg.project, [it] + rest) == {row} + RowsOf(cfg.project, rest) by {
        assert ([it] + rest)[1..] == rest;
      }
      var tx3 := ApplyAll(env, cfg, applied, tx2, items[1..]).tx;
      assert ApplyAll(env, cfg, applied, tx, items).tx == tx3;
      assert t in tx.tables && tx2.tables == tx.tables[t := tx.tables[t] + {row}];
      AddRowsTwice(tx.tables, t, {row}, RowsOf(cfg.project, rest));
    }
  }

  /**
   The loop, started on `tx` with pending items `p`, stopped at item `k` with
   error `e`: every earlier pending script was accepted, and either item
   `k`'s script was rejected, or it was accepted and the ledger insert that
   followed it (against the ledger with the earlier items' rows added) was
   refused.
   */
  predicate StopsAt<S>(env: Env<S>, cfg: Config, tx: Store<S>, p: seq<Item>, e: Error, k: int)
  {
    && 0 <= k < |p|
    && (e.ScriptFailed? || e.RecordFailed?)
    && e.id == p[k].id
    && RunScripts(env, tx.schema, p[..k]).Some?
    && (e.ScriptFailed? ==> env.run(RunScripts(env, tx.schema, p[..k]).value, p[k].content).None?)
    && (e.RecordFailed? ==>
          && RunScripts(env, tx.schema, p[..k + 1]).Some?
          && InsertRow(env, Store(AddRows(tx.tables, cfg.tableName, RowsOf(cfg.project, p[..k])),
                                  RunScripts(env, tx.schema, p[..k + 1]).value),
                       cfg.tableName, Row(cfg.project, p[k].id)).None?)
  }

  /**
   Pending item `j` of a loop started on `tx` ran and was recorded: after the
   earlier items, its script was accepted and its ledger insert (against the
   ledger with the earlier items' rows added) went through.
   */
  predicate Recorded<S>(env: Env<S>, cfg: Config, tx: Store<S>, p: seq<Item>, j: int)
  {
    && 0 <= j < |p|
    && RunScripts(env, tx.schema, p[..j + 1]).Some?
    && InsertRow(env, Store(AddRows(tx.tables, cfg.tableName, RowsOf(cfg.project, p[..j])),
                            RunScripts(env, tx.schema, p[..j + 1]).value),
                 cfg.tableName, Row(cfg.project, p[j].id)).Some?
  }

  /**
   After a first item that ran and was recorded, the rest of the loop starts
   where that item left off: the prefixes `StopsAt` looks at, shifted by one,
   give the same schema and the same ledger.
   */
  lemma ShiftedPrefixes<S>(env: Env<S>, cfg: Config, tx: Store<S>, tx1: Store<S>, tx2: Store<S>, it: Item, rest: seq<Item>, j: int)
    requires RunScript(env, tx, it.content) == Some(tx1)
    requires InsertRow(env, tx1, cfg.tableName, Row(cfg.project, it.id)) == Some(tx2)
    requires 0 <= j < |rest|
    ensures ([it] + rest)[j + 1] == rest[j]
    ensures RunScripts(env, tx.schema, ([it] + rest)[..j + 1]) == RunScripts(env, tx2.schema, rest[..j])
    ensures RunScripts(env, tx.schema, ([it] + rest)[..j + 2]) == RunScripts(env, tx2.schema, rest[..j + 1])
    ensures AddRows(tx.tables, cfg.tableName, RowsOf(cfg.project, ([it] + rest)[..j + 1]))
            == AddRows(tx2.tables, cfg.tableName, RowsOf(cfg.project, rest[..j]))
  {
    var t := cfg.tableName;
    var row := Row(cfg.project, it.id);
    var p := [it] + rest;
    assert p[..j + 1] == [it] + rest[..j];
    assert p[..j + 2] == [it] + rest[..j + 1];
    assert ([it] + rest[..j])[1..] == rest[..j];
    assert ([it] + rest[..j + 1])[1..] == rest[..j + 1];
    assert RowsOf(cfg.project, p[..j + 1]) == {row} + RowsOf(cfg.project, rest[..j]);
    assert tx2.tables == AddRows(tx.tables, t, {row});
    AddRowsTwice(tx.tables, t, {row}, RowsOf(cfg.project, rest[..j]));
  }

  /** A stop at item `j` after a first item that ran and was recorded is a stop at item `j + 1`. */
  lemma StopsAtShift<S>(env: Env<S>, cfg: Config, tx: Store<S>, tx1: Store<S>, tx2: Store<S>, it: Item, rest: seq<Item>, e: Error, j: int)
    requires RunScript(env, tx, it.content) == Some(tx1)
    requires InsertRow(env, tx1, cfg.tableName, Row(cfg.project, it.id)) == Some(tx2)
    requires StopsAt(env, cfg, tx2, rest, e, j)
    ensures StopsAt(env, cfg, tx, [it] + rest, e, j + 1)
  {
    ShiftedPrefixes(env, cfg, tx, tx1, tx2, it, rest, j);
  }

  /** Item `j` of the rest recorded after a first item that ran and was recorded is item `j + 1` recorded. */
  lemma RecordedShift<S>(env: Env<S>, cfg: Config, tx: Store<S>, tx1: Store<S>, tx2: Store<S>, it: Item, rest: seq<Item>, j: int)
    requires RunScript(env, tx, it.content) == Some(tx1)
    requires InsertRow(env, tx1, cfg.tableName, Row(cfg.project, it.id)) == Some(tx2)
    requires Recorded(env, cfg, tx2, rest, j)
    ensures Recorded(env, cfg, tx, [it] + rest, j + 1)
  {
    ShiftedPrefixes(env, cfg, tx, tx1, tx2, it, rest, j);
  }

  /** Conversely, a stop at item `j + 1` after such a first item is a stop at item `j` of the rest. */
  lemma StopsAtUnshift<S>(env: Env<S>, cfg: Config, tx: Store<S>, tx1: Store<S>, tx2: Store<S>, it: Item, rest: seq<Item>, e: Error, j: int)
    requires RunScript(env, tx, it.content) == Some(tx1)
    requires InsertRow(env, tx1, cfg.tableName, Row(cfg.project, it.id)) == Some(tx2)
    requires 0 <= j && StopsAt(env, cfg, tx, [it] + rest, e, j + 1)
    ensures StopsAt(env, cfg, tx2, rest, e, j)
  {
    ShiftedPrefixes(env, cfg, tx, tx1, tx2, it, rest, j);
  }

  /** A first item whose script or insert fails is a stop at item 0. */
  lemma StopsAtHead<S>(env: Env<S>, cfg: Config, tx: Store<S>, it: Item, rest: seq<Item>)
    requires RunScript(env, tx, it.content).None? ||
             InsertRow(env, RunScript(env, tx, it.content).value, cfg.tableName, Row(cfg.project, it.id)).None?
    ensures RunScript(env, tx, it.content).None? ==> StopsAt(env, cfg, tx, [it] + rest, ScriptFailed(it.id), 0)
    ensures RunScript(env, tx, it.content).Some? ==> StopsAt(env, cfg, tx, [it] + rest, RecordFailed(it.id), 0)
  {
    var t := cfg.tableName;
    var p := [it] + rest;
    assert p[..0] == [] && p[..1] == [it] && [it][1..] == [];
    if RunScript(env, tx, it.content).Some? {
      var tx1 := RunScript(env, tx, it.content).value;
      assert AddRows(tx.tables, t, RowsOf(cfg.project, p[..0])) == tx.tables by {
        if t in tx.tables {
          assert tx.tables[t] + {} == tx.tables[t];
          assert tx.tables[t := tx.tables[t]] == tx.tables;
        }
      }
      assert Store(tx.tables, tx1.schema) == tx1;
    }
  }

  /** A first item whose script and insert both succeed is not a stop at item 0. */
  lemma NoStopAtHead<S>(env: Env<S>, cfg: Config, tx: Store<S>, it: Item, rest: seq<Item>, e: Error)
    requires RunScript(env, tx, it.content).Some?
    requires InsertRow(env, RunScript(env, tx, it.content).value, cfg.tableName, Row(cfg.project, it.id)).Some?
    ensures !StopsAt(env, cfg, tx, [it] + rest, e, 0)
  {
    var t := cfg.tableName;
    var p := [it] + rest;
    var tx1 := RunScript(env, tx, it.content).value;
    assert p[..0] == [] && p[..1] == [it] && [it][1..] == [];
    assert RunScripts(env, tx.schema, p[..0]) == Some(tx.schema);
    assert RunScripts(env, tx.schema, p[..1]) == Some(tx1.schema);
    assert AddRows(tx.tables, t, RowsOf(cfg.project, p[..0])) == tx.tables by {
      assert tx.tables[t] + {} == tx.tables[t];
      assert tx.tables[t := tx.tables[t]] == tx.tables;
    }
    assert Store(tx.tables, tx1.schema) == tx1;
  }

  /**
   Conversely, a loop that completes stops at no pending item: no script it
   ran was rejected, and no insert was refused.
   */
  lemma {:induction false} CompletedNeverStops<S>(env: Env<S>, cfg: Config, applied: set<string>, tx: Store<S>, items: seq<Item>)
    requires ApplyAll(env, cfg, applied, tx, items).Completed?
    ensures forall e, k :: !StopsAt(env, cfg, tx, Pending(items, applied), e, k)
    decreases |items|
  {
    if |items| > 0 {
      var it := items[0];
      if it.id in applied {
        CompletedNeverStops(env, cfg, applied, tx, items[1..]);
      } else {
        var rest := Pending(items[1..], applied);
        assert Pending(items, applied) == [it] + rest;
        var tx1 := RunScript(env, tx, it.content).value;
        var tx2 := InsertRow(env, tx1, cfg.tableName, Row(cfg.project, it.id)).value;
        CompletedNeverStops(env, cfg, applied, tx2, items[1..]);
        forall e, k
          ensures !StopsAt(env, cfg, tx, [it] + rest, e, k)
        {
          if k == 0 {
            NoStopAtHead(env, cfg, tx, it, rest, e);
          } else if StopsAt(env, cfg, tx, [it] + rest, e, k) {
            StopsAtUnshift(env, cfg, tx, tx1, tx2, it, rest, e, k - 1);
          }
        }
      }
    }
  }

  /** A loop that stops does so at pending item `(|trace| - 1) / 2`, for the reason its error names. */
  lemma {:induction false} StoppedCause<S>(env: Env<S>, cfg: Config, applied: set<string>, tx: Store<S>, items: seq<Item>, e: Error, trace: seq<Event>)
    requires ApplyAll(env, cfg, applied, tx, items) == Stopped(e, trace)
    ensures StopsAt(env, cfg, tx, Pending(items, applied), e, (|trace| - 1) / 2)
    decreases |items|
  {
    var it := items[0];
    var s1 := RunScript(env, tx, it.content);
    if it.id in applied {
      assert ApplyAll(env, cfg, applied, tx, items[1..]) == Stopped(e, trace);
      StoppedCause(env, cfg, applied, tx, items[1..], e, trace);
      assert Pending(items, applied) == Pending(items[1..], applied);
    } else if s1.None? || InsertRow(env, s1.value, cfg.tableName, Row(cfg.project, it.id)).None? {
      StoppedCauseHead(env, cfg, applied, tx, items, e, trace);
    } else {
      var tx1 := s1.value;
      var tx2 := InsertRow(env, tx1, cfg.tableName, Row(cfg.project, it.id)).value;
      var inner := ApplyAll(env, cfg, applied, tx2, items[1..]);
      ApplyAllStep(env, cfg, applied, tx, tx1, tx2, items);
      var rest := inner.trace;
      assert ApplyAll(env, cfg, applied, tx2, items[1..]) == Stopped(e, rest);
      StoppedCause(env, cfg, applied, tx2, items[1..], e, rest);
      StopsAtAfterRan(env, cfg, applied, tx, tx1, tx2, items, e, (|rest| - 1) / 2);
      assert (|trace| - 1) / 2 == (|rest| - 1) / 2 + 1;
    }
  }

  /**
   A loop stops at its first failure: every pending item before the one it
   stops at ran and was recorded.
   */
  lemma {:induction false} StoppedFirst<S>(env: Env<S>, cfg: Config, applied: set<string>, tx: Store<S>, items: seq<Item>, e: Error, trace: seq<Event>)
    requires ApplyAll(env, cfg, applied, tx, items) == Stopped(e, trace)
    ensures forall j :: 0 <= j < (|trace| - 1) / 2 ==> Recorded(env, cfg, tx, Pending(items, applied), j)
    decreases |items|
  {
    var it := items[0];
    var s1 := RunScript(env, tx, it.content);
    if it.id in applied {
      assert ApplyAll(env, cfg, applied, tx, items[1..]) == Stopped(e, trace);
      StoppedFirst(env, cfg, applied, tx, items[1..], e, trace);
      assert Pending(items, applied) == Pending(items[1..], applied);
    } else if s1.None? || InsertRow(env, s1.value, cfg.tableName, Row(cfg.project, it.id)).None? {
      StoppedCauseHead(env, cfg, applied, tx, items, e, trace);
    } else {
      var tx1 := s1.value;
      var tx2 := InsertRow(env, tx1, cfg.tableName, Row(cfg.project, it.id)).value;
      var inner := ApplyAll(env, cfg, applied, tx2, items[1..]);
      ApplyAllStep(env, cfg, applied, tx, tx1, tx2, items);
      StoppedFirst(env, cfg, applied, tx2, items[1..], inner.error, inner.trace);
      var k := (|inner.trace| - 1) / 2;
      assert |inner.trace| <= |Statements(cfg.project, Pending(items[1..], applied))|;
      RecordedAfterRan(env, cfg, applied, tx, tx1, tx2, items, k);
      assert (|trace| - 1) / 2 == k + 1;
    }
  }

  /** The items recorded before a stop in the rest, after a first item that ran and was recorded, shifted by one. */
  lemma RecordedAfterRan<S>(env: Env<S>, cfg: Config, applied: set<string>, tx: Store<S>, tx1: Store<S>, tx2: Store<S>, items: seq<Item>, k: int)
    requires |items| > 0 && items[0].id !in applied
    requires RunScript(env, tx, items[0].content) == Some(tx1)
    requires InsertRow(env, tx1, cfg.tableName, Row(cfg.project, items[0].id)) == Some(tx2)
    requires k <= |Pending(items[1..], applied)|
    requires forall j :: 0 <= j < k ==> Recorded(env, cfg, tx2, Pending(items[1..], applied), j)
    ensures forall j :: 0 <= j < k + 1 ==> Recorded(env, cfg, tx, Pending(items, applied), j)
  {
    var it := items[0];
    var rest := Pending(items[1..], applied);
    assert Pending(items, applied) == [it] + rest;
    forall j | 0 <= j < k + 1
      ensures Recorded(env, cfg, tx, [it] + rest, j)
    {
      if j == 0 {
        RecordedHead(env, cfg, tx, tx1, tx2, it, rest);
      } else {
        RecordedShift(env, cfg, tx, tx1, tx2, it, rest, j - 1);
      }
    }
  }

  /** A first item whose script and insert both succeed ran and was recorded. */
  lemma RecordedHead<S>(env: Env<S>, cfg: Config, tx: Store<S>, tx1: Store<S>, tx2: Store<S>, it: Item, rest: seq<Item>)
    requires RunScript(env, tx, it.content) == Some(tx1)
    requires InsertRow(env, tx1, cfg.tableName, Row(cfg.project, it.id)) == Some(tx2)
    ensures Recorded(env, cfg, tx, [it] + rest, 0)
  {
    var t := cfg.tableName;
    var p := [it] + rest;
    assert p[..0] == [] && p[..1] == [it] && [it][1..] == [];
    assert RunScripts(env, tx.schema, p[..1]) == Some(tx1.schema);
    assert AddRows(tx.tables, t, RowsOf(cfg.project, p[..0])) == tx.tables by {
      assert tx.tables[t] + {} == tx.tables[t];
      assert tx.tables[t := tx.tables[t]] == tx.tables;
    }
    assert Store(tx.tables, tx1.schema) == tx1;
  }

  /** A stop in the rest, after a first item that ran and was recorded, is a stop one item later. */
  lemma StopsAtAfterRan<S>(env: Env<S>, cfg: Config, applied: set<string>, tx: Store<S>, tx1: Store<S>, tx2: Store<S>, items: seq<Item>, e: Error, j: int)
    requires |items| > 0 && items[0].id !in applied
    requires RunScript(env, tx, items[0].content) == Some(tx1)
    requires InsertRow(env, tx1, cfg.tableName, Row(cfg.project, items[0].id)) == Some(tx2)
    requires StopsAt(env, cfg, tx2, Pending(items[1..], applied), e, j)
    ensures StopsAt(env, cfg, tx, Pending(items, applied), e, j + 1)
  {
    var rest := Pending(items[1..], applied);
    StopsAtShift(env, cfg, tx, tx1, tx2, items[0], rest, e, j);
    assert Pending(items, applied) == [items[0]] + rest;
  }

  /** The base case of `StoppedCause`: the first pending item's script or insert failed. */
  lemma StoppedCauseHead<S>(env: Env<S>, cfg: Config, applied: set<string>, tx: Store<S>, items: seq<Item>, e: Error, trace: seq<Event>)
    requires |items| > 0 && items[0].id !in applied
    requires RunScript(env, tx, items[0].content).None? ||
             InsertRow(env, RunScript(env, tx, items[0].content).value, cfg.tableName, Row(cfg.project, items[0].id)).None?
    requires ApplyAll(env, cfg, applied, tx, items) == Stopped(e, trace)
    ensures StopsAt(env, cfg, tx, Pending(items, applied), e, (|trace| - 1) / 2)
    ensures (|trace| - 1) / 2 == 0
  {
    var it := items[0];
    var rest := Pending(items[1..], applied);
    assert Pending(items, applied) == [it] + rest;
    StopsAtHead(env, cfg, tx, it, rest);
  }

  /** When the first item is pending and both its statements succeed, the loop goes on with the rest. */
  lemma ApplyAllStep<S>(env: Env<S>, cfg: Config, applied: set<string>, tx: Store<S>, tx1: Store<S>, tx2: Store<S>, items: seq<Item>)
    requires |items| > 0 && items[0].id !in applied
    requires RunScript(env, tx, items[0].content) == Some(tx1)
    requires InsertRow(env, tx1, cfg.tableName, Row(cfg.project, items[0].id)) == Some(tx2)
    ensures var a := ApplyAll(env, cfg, applied, tx, items);
            var inner := ApplyAll(env, cfg, applied, tx2, items[1..]);
            && a.Stopped? == inner.Stopped?
            && a.trace == [Script(items[0].id), Record(Row(cfg.project, items[0].id))] + inner.trace
            && (a.Stopped? ==> a.error == inner.error)
  {
  }

  /**
   One reconciliation run. The transaction is rolled back on the first
   failure inside the loop; once the loop finishes the run reports success
   whether or not the commit took effect.
   */
  function DoUpgrade<S>(env: Env<S>, cfg: Config, st: Store<S>, items: seq<Item>): (r: Run<S>)
    ensures r.trace <= Statements(cfg.project, ToApply(env, cfg, st, items))
    ensures r.status.Ok? ==>
      && r.trace == Statements(cfg.project, ToApply(env, cfg, st, items))
      && cfg.tableName in r.store.tables
    ensures r.status.Err? ==> Explains(r.status.error, r.trace, cfg.project)
    ensures r.status.Fatal? ==> r.trace == [] && r.store == st
    ensures r.committed ==>
      && r.status.Ok?
      && r.store.tables == Bootstrapped(st, cfg.tableName).tables[cfg.tableName :=
           Rows(st, cfg.tableName) + RowsOf(cfg.project, ToApply(env, cfg, st, items))]
      && RunScripts(env, st.schema, ToApply(env, cfg, st, items)) == Some(r.store.schema)
    ensures !r.committed ==>
      r.store == st || (cfg.tableName !in st.tables && r.store == Bootstrapped(st, cfg.tableName))
    ensures GetInsertedFiles(env, cfg, st).Fetched? && !r.committed ==> r.store == Bootstrapped(st, cfg.tableName)
    ensures !GetInsertedFiles(env, cfg, st).Fetched? ==> r.store == st && r.trace == [] && !r.committed
  {
    match GetInsertedFiles(env, cfg, st)
    case FetchErr(e) => Run(Err(e), st, [], false)
    case FetchFatal => Run(Fatal, st, [], false)
    case Fetched(applied, st1) =>
      if env.fails(st1, Begin) then Run(Err(BeginFailed), st1, [], false)
      else
        match ApplyAll(env, cfg, applied, st1, items)
        case Stopped(e, trace) => Run(Err(e), st1, trace, false)
        case Completed(tx, trace) =>
          CompletedEffect(env, cfg, applied, st1, items);
          if env.fails(tx, Commit) then Run(Ok, st1, trace, false)
          else Run(Ok, tx, trace, true)
  }

  /** The entry point for an explicit item list: a run over exactly those items, in that order. */
  function UpgradeItems<S>(env: Env<S>, cfg: Config, st: Store<S>, items: seq<Item>): (r: Run<S>)
    ensures r == DoUpgrade(env, cfg, st, items)
    ensures r.status.Ok? ==> r.trace == Statements(cfg.project, Pending(items, Filenames(RowsRead(env, st, cfg.tableName))))
    ensures r.committed ==>
      Rows(r.store, cfg.tableName) == Rows(st, cfg.tableName) + RowsOf(cfg.project, Pending(items, Filenames(RowsRead(env, st, cfg.tableName))))
  {
    DoUpgrade(env, cfg, st, items)
  }

  /**
   Reads each listed file, in listing order, as an item named after the
   file; the first file that cannot be read is the error.
   */
  function ReadItems(fs: Fs, directory: string, names: seq<string>): (r: Read)
    ensures r.Items? ==>
      && |r.items| == |names|
      && forall i :: 0 <= i < |names| ==>
           r.items[i].id == names[i] && fs.readFile(directory + names[i]) == Some(r.items[i].content)
    ensures r.Unreadable? ==>
      exists i :: 0 <= i < |names|
        && r.error == ReadFailed(directory + names[i])
        && fs.readFile(directory + names[i]).None?
        && forall j :: 0 <= j < i ==> fs.readFile(directory + names[j]).Some?
  {
    if |names| == 0 then Items([])
    else match fs.readFile(directory + names[0])
      case None => Unreadable(ReadFailed(directory + names[0]))
      case Some(content) =>
        match ReadItems(fs, directory, names[1..])
        case Unreadable(e) => Unreadable(e)
        case Items(rest) => Items([Item(names[0], content)] + rest)
  }

  /**
   The entry point for a directory: list it, read every entry, and run the
   resulting items; a listing or read error ends the call before the
   database is touched.
   */
  function UpgradeDir<S>(env: Env<S>, fs: Fs, cfg: Config, st: Store<S>, directory: string): (r: Run<S>)
    ensures fs.readDir(directory).None? ==> r == Run(Err(ListFailed(directory)), st, [], false)
    ensures fs.readDir(directory).Some? && ReadItems(fs, directory, fs.readDir(directory).value).Unreadable? ==>
      r == Run(Err(ReadItems(fs, directory, fs.readDir(directory).value).error), st, [], false)
    ensures fs.readDir(directory).Some? && ReadItems(fs, directory, fs.readDir(directory).value).Items? ==>
      r == DoUpgrade(env, cfg, st, ReadItems(fs, directory, fs.readDir(directory).value).items)
  {
    match fs.readDir(directory)
    case None => Run(Err(ListFailed(directory)), st, [], false)
    case Some(names) =>
      match ReadItems(fs, directory, names)
      case Unreadable(e) => Run(Err(e), st, [], false)
      case Items(items) => DoUpgrade(env, cfg, st, items)
  }

  /**
   The default entry point: ledger table `migration_tbl`, scripts from
   `migrations/`. Only that table is written, and only with rows of the
   given project.
   */
  function Upgrade<S>(env: Env<S>, fs: Fs, st: Store<S>, project: string): (r: Run<S>)
    ensures r == UpgradeDir(env, fs, Config(project, DefaultTable), st, DefaultDirectory)
    ensures fs.readDir(DefaultDirectory).None? ==> r.status == Err(ListFailed(DefaultDirectory)) && r.trace == []
    ensures forall u :: u != DefaultTable ==> (u in r.store.tables <==> u in st.tables)
    ensures forall u :: u != DefaultTable && u in st.tables ==> r.store.tables[u] == st.tables[u]
    ensures forall row :: row in Rows(r.store, DefaultTable) && row !in Rows(st, DefaultTable) ==> row.project == project
  {
    UpgradeDir(env, fs, Config(project, DefaultTable), st, DefaultDirectory)
  }
}

=== FILE: properties.dfy ===
/**
 What a reconciliation run guarantees, and the quirks it has, stated over the
 model in the Migration module: which items run, in what order, what a
 failure leaves behind, why a second run is a no-op, and how the filename-only
 skip set treats duplicates and other projects' rows.
 */
module Properties {
  import opened Sql
  import opened Store
  import opened Migration

  /** No ledger-side call ever fails for an outside reason. */
  ghost predicate Reliable<S(!new)>(env: Env<S>)
  {
    forall st, op :: !env.fails(st, op)
  }

  /** The database accepts every migration script. */
  ghost predicate AcceptsScripts<S(!new)>(env: Env<S>)
  {
    forall s, content :: env.run(s, content).Some?
  }

  /** How many items carry identifier `id`. */
  function Occurrences(items: seq<Item>, id: string): (n: nat)
    ensures n == 0 <==> forall it :: it in items ==> it.id != id
    ensures n <= |items|
  {
    if |items| == 0 then 0
    else (if items[0].id == id then 1 else 0) + Occurrences(items[1..], id)
  }

  /** The same environment, except that every commit fails. */
  function LoseCommits<S>(env: Env<S>): Env<S>
  {
    Env(env.run, (st: Store<S>, op: Op) => op.Commit? || env.fails(st, op))
  }

  // ---------------------------------------------------------------------------
  // Facts about the reference definitions
  // ---------------------------------------------------------------------------

  /** Item `i` contributes statements `2i` (its script) and `2i+1` (its insert). */
  lemma {:induction false} StatementsAt(project: string, items: seq<Item>, i: int)
    requires 0 <= i < |items|
    ensures Statements(project, items)[2 * i] == Script(items[i].id)
    ensures Statements(project, items)[2 * i + 1] == Record(Row(project, items[i].id))
    decreases i
  {
    if i > 0 {
      StatementsAt(project, items[1..], i - 1);
    }
  }

  /** The statements of the first `k` items are the first `2k` statements. */
  lemma {:induction false} StatementsPrefix(project: string, items: seq<Item>, k: int)
    requires 0 <= k <= |items|
    ensures Statements(project, items)[..2 * k] == Statements(project, items[..k])
    decreases k
  {
    if k > 0 {
      StatementsPrefix(project, items[1..], k - 1);
      assert items[..k][1..] == items[1..][..k - 1];
      assert items[..k][0] == items[0];
    }
  }

  /** A script statement for `id` is sent exactly when some item has that identifier. */
  lemma {:induction false} ScriptSent(project: string, items: seq<Item>, id: string)
    ensures Script(id) in Statements(project, items) <==> exists it :: it in items && it.id == id
    decreases |items|
  {
    if |items| > 0 {
      ScriptSent(project, items[1..], id);
      assert Statements(project, items)
          == [Script(items[0].id), Record(Row(project, items[0].id))] + Statements(project, items[1..]);
      if Script(id) in Statements(project, items[1..]) {
        var it :| it in items[1..] && it.id == id;
        assert it in items;
      }
      if exists it :: it in items && it.id == id {
        var it :| it in items && it.id == id;
        if it != items[0] {
          var j :| 0 <= j < |items| && items[j] == it;
          assert items[1..][j - 1] == it;
        }
      }
    }
  }

  /** With nothing applied, every item is pending. */
  lemma {:induction false} NothingApplied(items: seq<Item>)
    ensures Pending(items, {}) == items
    decreases |items|
  {
    if |items| > 0 {
      NothingApplied(items[1..]);
      assert items == [items[0]] + items[1..];
    }
  }

  /** With every identifier applied, nothing is pending. */
  lemma {:induction false} AllApplied(items: seq<Item>, applied: set<string>)
    requires forall it :: it in items ==> it.id in applied
    ensures Pending(items, applied) == []
    decreases |items|
  {
    if |items| > 0 {
      assert items[0] in items;
      AllApplied(items[1..], applied);
    }
  }

  /** Skipping applied items keeps every occurrence of an identifier that is not applied. */
  lemma {:induction false} OccurrencesPending(items: seq<Item>, applied: set<string>, id: string)
    requires id !in applied
    ensures Occurrences(Pending(items, applied), id) == Occurrences(items, id)
    decreases |items|
  {
    if |items| > 0 {
      OccurrencesPending(items[1..], applied, id);
      var rest := Pending(items[1..], applied);
      if items[0].id !in applied {
        assert ([items[0]] + rest)[1..] == rest;
      }
    }
  }

  lemma PrefixMember<T>(a: seq<T>, b: seq<T>, x: T)
    requires a <= b && x in a
    ensures x in b
  {
    var i :| 0 <= i < |a| && a[i] == x;
    assert b[i] == x;
  }

  // ---------------------------------------------------------------------------
  // Which items run
  // ---------------------------------------------------------------------------

  /**
   An item's script is sent only if its identifier was not among the ledger
   rows read when the run started; on a successful run every such item's
   script was sent. When the iteration delivers every row, "read" is "in the
   ledger".
   */
  lemma RunsExactlyTheUnapplied<S>(env: Env<S>, cfg: Config, st: Store<S>, items: seq<Item>, it: Item)
    requires it in items
    ensures Script(it.id) in DoUpgrade(env, cfg, st, items).trace
            ==> it.id !in Filenames(RowsRead(env, st, cfg.tableName))
    ensures DoUpgrade(env, cfg, st, items).status.Ok? && it.id !in Filenames(RowsRead(env, st, cfg.tableName))
            ==> Script(it.id) in DoUpgrade(env, cfg, st, items).trace
    ensures ReadsAll(env, st, cfg.tableName) && Script(it.id) in DoUpgrade(env, cfg, st, items).trace
            ==> it.id !in Filenames(Rows(st, cfg.tableName))
  {
    var r := DoUpgrade(env, cfg, st, items);
    var p := ToApply(env, cfg, st, items);
    var ev := Statements(cfg.project, p);
    ScriptSent(cfg.project, p, it.id);
    if Script(it.id) in r.trace {
      PrefixMember(r.trace, ev, Script(it.id));
      var other :| other in p && other.id == it.id;
    }
    if r.status.Ok? && it.id !in Filenames(RowsRead(env, st, cfg.tableName)) {
      assert it in p;
    }
  }

  /** Statement `j` is the script of item `j/2` when `j` is even and its insert when `j` is odd. */
  lemma StatementAt(project: string, items: seq<Item>, j: int)
    requires 0 <= j < 2 * |items|
    ensures Statements(project, items)[j]
            == if j % 2 == 0 then Script(items[j / 2].id) else Record(Row(project, items[j / 2].id))
  {
    StatementsAt(project, items, j / 2);
  }

  /** A prefix of the statements that ends with a script ends with item `|trace| / 2`'s script. */
  lemma EndsAtScript(project: string, p: seq<Item>, trace: seq<Event>, id: string)
    requires trace <= Statements(project, p)
    requires |trace| > 0 && trace[|trace| - 1] == Script(id)
    ensures |trace| % 2 == 1 && |trace| < 2 * |p|
    ensures p[|trace| / 2].id == id
    ensures trace == Statements(project, p[..|trace| / 2]) + [Script(id)]
  {
    var ev := Statements(project, p);
    StatementAt(project, p, |trace| - 1);
    StatementsPrefix(project, p, |trace| / 2);
    assert trace == ev[..|trace| - 1] + [ev[|trace| - 1]];
  }

  /** A prefix of the statements that ends with a script and its insert ends with item `|trace| / 2 - 1`'s insert. */
  lemma {:induction false} EndsAtRecord(project: string, p: seq<Item>, trace: seq<Event>, id: string)
    requires trace <= Statements(project, p)
    requires |trace| > 1 && trace[|trace| - 2] == Script(id) && trace[|trace| - 1] == Record(Row(project, id))
    ensures |trace| % 2 == 0 && |trace| <= 2 * |p|
    ensures p[|trace| / 2 - 1].id == id
    ensures trace == Statements(project, p[..|trace| / 2])
    decreases |p|
  {
    var ev := Statements(project, p);
    var head := [Script(p[0].id), Record(Row(project, p[0].id))];
    assert ev == head + Statements(project, p[1..]);
    if |trace| == 2 {
      assert p[..1][1..] == [];
    } else if |trace| == 3 {
      assert false;
    } else {
      var tail := trace[2..];
      assert tail <= Statements(project, p[1..]);
      EndsAtRecord(project, p[1..], tail, id);
      var m := |tail| / 2;
      assert |trace| / 2 == m + 1;
      assert p[..m + 1][1..] == p[1..][..m];
      assert trace == head + tail;
    }
  }

  /**
   A run reports a script or insert failure only for a real one, at pending
   item `k`, `(|trace| - 1) / 2`. Every earlier pending script was accepted
   and recorded. Then either item `k`'s script was rejected, or it was
   accepted and its ledger insert was refused, against the ledger as the
   earlier items left it.
   */
  lemma FailureCause<S>(env: Env<S>, cfg: Config, st: Store<S>, items: seq<Item>)
    requires DoUpgrade(env, cfg, st, items).status.Err?
    requires DoUpgrade(env, cfg, st, items).status.error.ScriptFailed? || DoUpgrade(env, cfg, st, items).status.error.RecordFailed?
    ensures var r := DoUpgrade(env, cfg, st, items);
            StopsAt(env, cfg, Bootstrapped(st, cfg.tableName), ToApply(env, cfg, st, items), r.status.error, (|r.trace| - 1) / 2)
    ensures var r := DoUpgrade(env, cfg, st, items);
            forall j :: 0 <= j < (|r.trace| - 1) / 2 ==>
              Recorded(env, cfg, Bootstrapped(st, cfg.tableName), ToApply(env, cfg, st, items), j)
  {
    var r := DoUpgrade(env, cfg, st, items);
    var f := GetInsertedFiles(env, cfg, st);
    assert f.Fetched? && ApplyAll(env, cfg, f.applied, f.store, items) == Stopped(r.status.error, r.trace);
    StoppedCause(env, cfg, f.applied, f.store, items, r.status.error, r.trace);
    StoppedFirst(env, cfg, f.applied, f.store, items, r.status.error, r.trace);
  }

  /**
   A failing script is the last statement of the run: the pending items
   before it all ran and were recorded, and nothing after it was tried.
   `FailureCause` says why it failed.
   */
  lemma ScriptFailureStopsTheRun<S>(env: Env<S>, cfg: Config, st: Store<S>, items: seq<Item>, id: string)
    requires DoUpgrade(env, cfg, st, items).status == Err(ScriptFailed(id))
    ensures var p := ToApply(env, cfg, st, items);
            var k := |DoUpgrade(env, cfg, st, items).trace| / 2;
            && k < |p| && p[k].id == id
            && DoUpgrade(env, cfg, st, items).trace == Statements(cfg.project, p[..k]) + [Script(id)]
            && forall j :: 0 <= j < k ==> Recorded(env, cfg, Bootstrapped(st, cfg.tableName), p, j)
  {
    var r := DoUpgrade(env, cfg, st, items);
    EndsAtScript(cfg.project, ToApply(env, cfg, st, items), r.trace, id);
    FailureCause(env, cfg, st, items);
  }

  /**
   A failing ledger insert is the last statement of the run: its item's
   script ran, the pending items before it all ran and were recorded, and
   nothing after it was tried. `FailureCause` says why it failed.
   */
  lemma RecordFailureStopsTheRun<S>(env: Env<S>, cfg: Config, st: Store<S>, items: seq<Item>, id: string)
    requires DoUpgrade(env, cfg, st, items).status == Err(RecordFailed(id))
    ensures var p := ToApply(env, cfg, st, items);
            var k := |DoUpgrade(env, cfg, st, items).trace| / 2;
            && 0 < k <= |p| && p[k - 1].id == id
            && DoUpgrade(env, cfg, st, items).trace == Statements(cfg.project, p[..k])
            && forall j :: 0 <= j < k - 1 ==> Recorded(env, cfg, Bootstrapped(st, cfg.tableName), p, j)
  {
    var r := DoUpgrade(env, cfg, st, items);
    EndsAtRecord(cfg.project, ToApply(env, cfg, st, items), r.trace, id);
    FailureCause(env, cfg, st, items);
  }

  /**
   A run that does not succeed leaves the ledger rows and the schema as they
   were: the database is as the fetch left it, with the ledger table created
   if it was missing, or untouched when the fetch itself failed.
   */
  lemma FailureRollsBack<S>(env: Env<S>, cfg: Config, st: Store<S>, items: seq<Item>)
    requires !DoUpgrade(env, cfg, st, items).status.Ok?
    ensures Rows(DoUpgrade(env, cfg, st, items).store, cfg.tableName) == Rows(st, cfg.tableName)
    ensures DoUpgrade(env, cfg, st, items).store.schema == st.schema
    ensures cfg.tableName in st.tables ==> DoUpgrade(env, cfg, st, items).store == st
    ensures GetInsertedFiles(env, cfg, st).Fetched? ==> DoUpgrade(env, cfg, st, items).store == Bootstrapped(st, cfg.tableName)
    ensures !GetInsertedFiles(env, cfg, st).Fetched? ==> DoUpgrade(env, cfg, st, items).store == st
  {
  }

  /** A begin failure is reported before any item runs, and the ledger is untouched. */
  lemma BeginFailureRunsNothing<S>(env: Env<S>, cfg: Config, st: Store<S>, items: seq<Item>)
    requires GetInsertedFiles(env, cfg, st).Fetched?
    requires env.fails(Bootstrapped(st, cfg.tableName), Begin)
    ensures DoUpgrade(env, cfg, st, items) == Run(Err(BeginFailed), Bootstrapped(st, cfg.tableName), [], false)
  {
  }

  /**
   The commit's result is never looked at: a run whose commit fails returns
   the same status after the same statements as one whose commit succeeds.
   */
  lemma CommitResultIgnored<S>(env: Env<S>, cfg: Config, st: Store<S>, items: seq<Item>)
    ensures DoUpgrade(LoseCommits(env), cfg, st, items).status == DoUpgrade(env, cfg, st, items).status
    ensures DoUpgrade(LoseCommits(env), cfg, st, items).trace == DoUpgrade(env, cfg, st, items).trace
    ensures !DoUpgrade(LoseCommits(env), cfg, st, items).committed
  {
    var lost := LoseCommits(env);
    assert GetInsertedFiles(lost, cfg, st) == GetInsertedFiles(env, cfg, st);
    match GetInsertedFiles(env, cfg, st)
    case Fetched(applied, st1) =>
      LoopIgnoresCommit(env, cfg, applied, st1, items);
    case _ =>
  }

  lemma {:induction false} LoopIgnoresCommit<S>(env: Env<S>, cfg: Config, applied: set<string>, tx: Store<S>, items: seq<Item>)
    ensures ApplyAll(LoseCommits(env), cfg, applied, tx, items) == ApplyAll(env, cfg, applied, tx, items)
    decreases |items|
  {
    if |items| > 0 {
      var it := items[0];
      var row := Row(cfg.project, it.id);
      LoopIgnoresCommit(env, cfg, applied, tx, items[1..]);
      if RunScript(env, tx, it.content).Some? {
        var tx1 := RunScript(env, tx, it.content).value;
        assert InsertRow(LoseCommits(env), tx1, cfg.tableName, row) == InsertRow(env, tx1, cfg.tableName, row);
        if InsertRow(env, tx1, cfg.tableName, row).Some? {
          LoopIgnoresCommit(env, cfg, applied, InsertRow(env, tx1, cfg.tableName, row).value, items[1..]);
        }
      }
    }
  }

  // ---------------------------------------------------------------------------
  // When a run succeeds and commits
  // ---------------------------------------------------------------------------

  /**
   A run returns nil exactly when the ledger is read, the transaction
   begins, and no pending item's script is rejected nor its insert refused.
   */
  lemma NoFailureReturnsNil<S>(env: Env<S>, cfg: Config, st: Store<S>, items: seq<Item>)
    ensures var b := Bootstrapped(st, cfg.tableName);
            DoUpgrade(env, cfg, st, items).status == Ok <==>
              && GetInsertedFiles(env, cfg, st).Fetched?
              && !env.fails(b, Begin)
              && forall e, k :: !StopsAt(env, cfg, b, ToApply(env, cfg, st, items), e, k)
  {
    var f := GetInsertedFiles(env, cfg, st);
    if f.Fetched? && !env.fails(f.store, Begin) {
      match ApplyAll(env, cfg, f.applied, f.store, items)
      case Completed(_, _) =>
        CompletedNeverStops(env, cfg, f.applied, f.store, items);
      case Stopped(e, trace) =>
        StoppedCause(env, cfg, f.applied, f.store, items, e, trace);
    }
  }

  /**
   A run that returns nil ran every pending script successfully, and its
   work persists exactly when the commit of the resulting state does not
   fail.
   */
  lemma OkCommitsUnlessCommitFails<S>(env: Env<S>, cfg: Config, st: Store<S>, items: seq<Item>)
    ensures var p := ToApply(env, cfg, st, items);
            DoUpgrade(env, cfg, st, items).status == Ok ==>
              && RunScripts(env, st.schema, p).Some?
              && (DoUpgrade(env, cfg, st, items).committed <==>
                    !env.fails(Store(AddRows(Bootstrapped(st, cfg.tableName).tables, cfg.tableName, RowsOf(cfg.project, p)),
                                     RunScripts(env, st.schema, p).value),
                               Commit))
  {
    var f := GetInsertedFiles(env, cfg, st);
    if DoUpgrade(env, cfg, st, items).status == Ok {
      assert f.Fetched?;
      var a := ApplyAll(env, cfg, f.applied, f.store, items);
      assert a.Completed?;
      CompletedEffect(env, cfg, f.applied, f.store, items);
    }
  }

  /** On a database that never fails, the ledger is read in full, bootstrapping it when absent. */
  lemma ReliableFetch<S(!new)>(env: Env<S>, cfg: Config, st: Store<S>)
    requires Reliable(env)
    ensures GetInsertedFiles(env, cfg, st) == Fetched(Filenames(Rows(st, cfg.tableName)), Bootstrapped(st, cfg.tableName))
  {
    var t := cfg.tableName;
    assert RowsRead(env, st, t) == Rows(st, t);
    if t in st.tables {
      assert !env.fails(st, Exec(SelectSql(t), []));
      assert !env.fails(st, Query(SelectSql(t)));
      assert !env.fails(st, Scan(SelectSql(t)));
    } else {
      assert !env.fails(st, Exec(CreateSql(t), []));
    }
  }

  /**
   On a database that never fails and accepts every script, a run whose
   pending items have distinct identifiers returns nil and commits. (A
   pending item's identifier names no ledger row at all, so no insert can
   clash with an existing row.)
   */
  lemma ReliableRunCommits<S(!new)>(env: Env<S>, cfg: Config, st: Store<S>, items: seq<Item>)
    requires Reliable(env) && AcceptsScripts(env)
    requires forall id :: Occurrences(ToApply(env, cfg, st, items), id) <= 1
    ensures DoUpgrade(env, cfg, st, items).status == Ok
    ensures DoUpgrade(env, cfg, st, items).committed
  {
    var t := cfg.tableName;
    var b := Bootstrapped(st, t);
    var applied := Filenames(Rows(st, t));
    ReliableFetch(env, cfg, st);
    assert RowsRead(env, st, t) == Rows(st, t);
    assert ToApply(env, cfg, st, items) == Pending(items, applied);
    forall it | it in Pending(items, applied)
      ensures Row(cfg.project, it.id) !in b.tables[t]
    {
      assert it.id !in applied;
    }
    ReliableLoopCompletes(env, cfg, applied, b, items);
    var a := ApplyAll(env, cfg, applied, b, items);
    assert !env.fails(b, Begin);
    assert !env.fails(a.tx, Commit);
    assert DoUpgrade(env, cfg, st, items) == Run(Ok, a.tx, a.trace, true);
  }

  // ---------------------------------------------------------------------------
  // Idempotence and bootstrap
  // ---------------------------------------------------------------------------

  /** After a committed run, the ledger records every item's identifier, under some project. */
  lemma CommittedRecordsEveryItem<S>(env: Env<S>, cfg: Config, st: Store<S>, items: seq<Item>)
    requires DoUpgrade(env, cfg, st, items).committed
    ensures forall it :: it in items ==> it.id in Filenames(Rows(DoUpgrade(env, cfg, st, items).store, cfg.tableName))
  {
    var r1 := DoUpgrade(env, cfg, st, items);
    var t := cfg.tableName;
    var p := ToApply(env, cfg, st, items);
    assert Rows(r1.store, t) == Rows(st, t) + RowsOf(cfg.project, p);
    forall it | it in items
      ensures it.id in Filenames(Rows(r1.store, t))
    {
      if it.id in Filenames(RowsRead(env, st, t)) {
        var row :| row in RowsRead(env, st, t) && row.filename == it.id;
        assert row in Rows(r1.store, t);
      } else {
        assert it in p;
        assert Row(cfg.project, it.id) in Rows(r1.store, t);
      }
    }
  }

  /** With the ledger table in place and nothing pending, a run sends nothing and changes nothing. */
  lemma NothingPendingIsNoop<S>(env: Env<S>, cfg: Config, st: Store<S>, items: seq<Item>)
    requires cfg.tableName in st.tables
    requires ToApply(env, cfg, st, items) == []
    ensures DoUpgrade(env, cfg, st, items).trace == []
    ensures DoUpgrade(env, cfg, st, items).store == st
  {
    var t := cfg.tableName;
    var r := DoUpgrade(env, cfg, st, items);
    assert Bootstrapped(st, t) == st;
    assert r.trace <= [];
    if r.committed {
      assert Rows(st, t) + RowsOf(cfg.project, []) == st.tables[t];
      assert st.tables[t := st.tables[t]] == st.tables;
    }
  }

  /**
   After a committed run, running the same items again sends nothing and
   changes nothing, provided the second run's iteration delivers every row.
   */
  lemma Idempotent<S>(env: Env<S>, cfg: Config, st: Store<S>, items: seq<Item>)
    requires DoUpgrade(env, cfg, st, items).committed
    requires ReadsAll(env, DoUpgrade(env, cfg, st, items).store, cfg.tableName)
    ensures var again := DoUpgrade(env, cfg, DoUpgrade(env, cfg, st, items).store, items);
            again.trace == [] && again.store == DoUpgrade(env, cfg, st, items).store
  {
    var r1 := DoUpgrade(env, cfg, st, items);
    var t := cfg.tableName;
    CommittedRecordsEveryItem(env, cfg, st, items);
    assert RowsRead(env, r1.store, t) == Rows(r1.store, t);
    AllApplied(items, Filenames(Rows(r1.store, t)));
    NothingPendingIsNoop(env, cfg, r1.store, items);
  }

  /**
   When the probe fails, the table is created and every item is pending; if
   creation fails the run reports it with no transaction begun.
   */
  lemma ProbeFailureBootstraps<S>(env: Env<S>, cfg: Config, st: Store<S>, items: seq<Item>)
    requires !ProbeOk(env, st, cfg.tableName)
    ensures CreateMigrationTable(env, cfg, st).None? ==>
      DoUpgrade(env, cfg, st, items) == Run(Err(CreateFailed), st, [], false)
    ensures CreateMigrationTable(env, cfg, st).Some? ==>
      && GetInsertedFiles(env, cfg, st) == Fetched({}, Bootstrapped(st, cfg.tableName))
      && ToApply(env, cfg, st, items) == items
  {
    NothingApplied(items);
  }

  /**
   A run that reports success leaves the ledger table in place, so a later
   run never creates it again: its tables are the same ones.
   */
  lemma BootstrapOnce<S>(env: Env<S>, cfg: Config, st: Store<S>, items: seq<Item>, later: seq<Item>)
    requires DoUpgrade(env, cfg, st, items).status.Ok?
    ensures var r1 := DoUpgrade(env, cfg, st, items);
            && cfg.tableName in r1.store.tables
            && DoUpgrade(env, cfg, r1.store, later).store.tables.Keys == r1.store.tables.Keys
  {
  }

  // ---------------------------------------------------------------------------
  // The filename-only skip set
  // ---------------------------------------------------------------------------

  /**
   A completed loop inserted one fresh row per pending item, so no two
   pending items share an identifier and none was in the ledger before.
   */
  lemma {:induction false} CompletedIsDuplicateFree<S>(env: Env<S>, cfg: Config, applied: set<string>, tx: Store<S>, items: seq<Item>)
    requires ApplyAll(env, cfg, applied, tx, items).Completed?
    ensures forall it :: it in Pending(items, applied) ==> Row(cfg.project, it.id) !in Rows(tx, cfg.tableName)
    ensures forall id :: Occurrences(Pending(items, applied), id) <= 1
    decreases |items|
  {
    if |items| > 0 {
      var it := items[0];
      if it.id in applied {
        CompletedIsDuplicateFree(env, cfg, applied, tx, items[1..]);
      } else {
        var row := Row(cfg.project, it.id);
        var tx1 := RunScript(env, tx, it.content).value;
        var tx2 := InsertRow(env, tx1, cfg.tableName, row).value;
        CompletedIsDuplicateFree(env, cfg, applied, tx2, items[1..]);
        var rest := Pending(items[1..], applied);
        assert Pending(items, applied) == [it] + rest;
        assert ([it] + rest)[1..] == rest;
        assert Rows(tx2, cfg.tableName) == Rows(tx, cfg.tableName) + {row};
        assert Occurrences(rest, it.id) == 0;
      }
    }
  }

  /**
   Conversely, when the database never fails, the loop completes as soon as
   the pending items have distinct identifiers none of which this project
   has recorded.
   */
  lemma {:induction false} ReliableLoopCompletes<S(!new)>(env: Env<S>, cfg: Config, applied: set<string>, tx: Store<S>, items: seq<Item>)
    requires Reliable(env) && AcceptsScripts(env)
    requires cfg.tableName in tx.tables
    requires forall it :: it in Pending(items, applied) ==> Row(cfg.project, it.id) !in tx.tables[cfg.tableName]
    requires forall id :: Occurrences(Pending(items, applied), id) <= 1
    ensures ApplyAll(env, cfg, applied, tx, items).Completed?
    decreases |items|
  {
    if |items| > 0 {
      var it := items[0];
      if it.id in applied {
        assert Pending(items, applied) == Pending(items[1..], applied);
        ReliableLoopCompletes(env, cfg, applied, tx, items[1..]);
      } else {
        var t := cfg.tableName;
        var row := Row(cfg.project, it.id);
        var rest := Pending(items[1..], applied);
        assert Pending(items, applied) == [it] + rest;
        assert ([it] + rest)[1..] == rest;
        assert env.run(tx.schema, it.content).Some?;
        var tx1 := RunScript(env, tx, it.content).value;
        assert !env.fails(tx1, Exec(Sql.InsertSql(t), [row.project, row.filename]));
        var tx2 := InsertRow(env, tx1, t, row).value;
        assert Occurrences([it] + rest, it.id) == 1 + Occurrences(rest, it.id) by {
          assert ([it] + rest)[0] == it;
        }
        assert Occurrences(rest, it.id) == 0 by {
          assert Occurrences(Pending(items, applied), it.id) <= 1;
        }
        forall id
          ensures Occurrences(rest, id) <= 1
        {
          assert Occurrences(Pending(items, applied), id) <= 1;
          assert ([it] + rest)[0] == it;
        }
        ReliableLoopCompletes(env, cfg, applied, tx2, items[1..]);
      }
    }
  }

  /**
   An identifier listed twice and not yet applied makes the run fail: the
   second copy's script runs again (or fails), and its ledger insert clashes
   with the first copy's row. The whole run is rolled back.
   */
  lemma DuplicateNeverCommits<S>(env: Env<S>, cfg: Config, st: Store<S>, items: seq<Item>, id: string)
    requires Occurrences(items, id) >= 2
    requires id !in Filenames(RowsRead(env, st, cfg.tableName))
    ensures !DoUpgrade(env, cfg, st, items).status.Ok?
    ensures Rows(DoUpgrade(env, cfg, st, items).store, cfg.tableName) == Rows(st, cfg.tableName)
  {
    var r := DoUpgrade(env, cfg, st, items);
    var applied := Filenames(RowsRead(env, st, cfg.tableName));
    OccurrencesPending(items, applied, id);
    if r.status.Ok? {
      var f := GetInsertedFiles(env, cfg, st);
      assert f.Fetched? && f.applied == applied;
      assert ApplyAll(env, cfg, applied, f.store, items).Completed?;
      CompletedIsDuplicateFree(env, cfg, applied, f.store, items);
      assert false;
    }
  }

  /**
   A ledger row for `id` under any project, this one or another, keeps
   every item named `id` from running, and no row for this project is added.
   */
  lemma AnyProjectRowSkips<S>(env: Env<S>, cfg: Config, st: Store<S>, items: seq<Item>, other: string, id: string)
    requires Row(other, id) in RowsRead(env, st, cfg.tableName)
    ensures Script(id) !in DoUpgrade(env, cfg, st, items).trace
    ensures Row(cfg.project, id) in Rows(DoUpgrade(env, cfg, st, items).store, cfg.tableName)
            <==> Row(cfg.project, id) in Rows(st, cfg.tableName)
  {
    var r := DoUpgrade(env, cfg, st, items);
    var p := ToApply(env, cfg, st, items);
    assert id in Filenames(RowsRead(env, st, cfg.tableName));
    ScriptSent(cfg.project, p, id);
    if Script(id) in r.trace {
      PrefixMember(r.trace, Statements(cfg.project, p), Script(id));
    }
    assert Row(cfg.project, id) !in RowsOf(cfg.project, p);
  }

  // ---------------------------------------------------------------------------
  // Scenarios
  // ---------------------------------------------------------------------------

  /**
   Items are run in the order given, not sorted by identifier: `001_init`
   runs before `000_setup` when listed first.
   */
  lemma GivenOrderNotSorted<S(!new)>(env: Env<S>, cfg: Config, st: Store<S>)
    requires Reliable(env) && AcceptsScripts(env)
    requires cfg.tableName in st.tables && st.tables[cfg.tableName] == {}
    ensures var r := DoUpgrade(env, cfg, st, [Item("001_init", "a"), Item("002_add_users", "b"), Item("000_setup", "c")]);
            && r.committed
            && r.trace[0] == Script("001_init")
            && r.trace[2] == Script("002_add_users")
            && r.trace[4] == Script("000_setup")
  {
    var items := [Item("001_init", "a"), Item("002_add_users", "b"), Item("000_setup", "c")];
    NothingApplied(items);
    assert Filenames(RowsRead(env, st, cfg.tableName)) == {};
    assert GetInsertedFiles(env, cfg, st) == Fetched({}, st);
    forall id
      ensures Occurrences(items, id) <= 1
    {
      assert items[1..] == [items[1], items[2]];
      assert items[1..][1..] == [items[2]];
      assert items[1..][1..][1..] == [];
    }
    ReliableLoopCompletes(env, cfg, {}, st, items);
    StatementsAt(cfg.project, items, 0);
    StatementsAt(cfg.project, items, 1);
    StatementsAt(cfg.project, items, 2);
  }

  /**
   A fresh database and two good scripts: the table is created and both are
   recorded for the project.
   */
  lemma FreshDatabase<S(!new)>(env: Env<S>, cfg: Config, st: Store<S>)
    requires Reliable(env) && AcceptsScripts(env)
    requires cfg.tableName !in st.tables
    ensures var r := DoUpgrade(env, cfg, st, [Item("a.sql", "CREATE TABLE t(x int);"), Item("b.sql", "INSERT INTO t VALUES (1);")]);
            && r.status == Ok && r.committed
            && Rows(r.store, cfg.tableName) == {Row(cfg.project, "a.sql"), Row(cfg.project, "b.sql")}
  {
    var items := [Item("a.sql", "CREATE TABLE t(x int);"), Item("b.sql", "INSERT INTO t VALUES (1);")];
    assert ToApply(env, cfg, st, items) == items by {
      assert RowsRead(env, st, cfg.tableName) == {};
      NothingApplied(items);
    }
    assert forall id :: Occurrences(items, id) <= 1 by {
      assert items[1..] == [items[1]] && [items[1]][1..] == [];
    }
    ReliableRunCommits(env, cfg, st, items);
    assert RowsOf(cfg.project, items) == {Row(cfg.project, "a.sql"), Row(cfg.project, "b.sql")} by {
      assert items[1..] == [items[1]];
    }
  }

  /**
   A fresh database and a script the database rejects: the run stops at it,
   the ledger table has been created but holds no row, and the schema is
   untouched.
   */
  lemma FreshDatabaseBadScript<S(!new)>(env: Env<S>, cfg: Config, st: Store<S>)
    requires Reliable(env)
    requires env.run(st.schema, "bad sql ((").None?
    requires cfg.tableName !in st.tables
    ensures var r := DoUpgrade(env, cfg, st, [Item("a.sql", "bad sql ((")]);
            && r.status == Err(ScriptFailed("a.sql"))
            && r.store == Bootstrapped(st, cfg.tableName)
            && Rows(r.store, cfg.tableName) == {}
  {
  }

  /**
   The ledger already records `a.sql`: only `b.sql` runs and is recorded.
   */
  lemma PartlyApplied<S(!new)>(env: Env<S>, cfg: Config, st: Store<S>)
    requires Reliable(env) && AcceptsScripts(env)
    requires cfg.tableName in st.tables && st.tables[cfg.tableName] == {Row(cfg.project, "a.sql")}
    ensures var r := DoUpgrade(env, cfg, st, [Item("a.sql", "x"), Item("b.sql", "y")]);
            && r.trace == [Script("b.sql"), Record(Row(cfg.project, "b.sql"))]
            && r.committed
            && Rows(r.store, cfg.tableName) == {Row(cfg.project, "a.sql"), Row(cfg.project, "b.sql")}
  {
    var items := [Item("a.sql", "x"), Item("b.sql", "y")];
    assert Filenames(st.tables[cfg.tableName]) == {"a.sql"};
    assert items[1..] == [Item("b.sql", "y")];
    assert Pending(items, {"a.sql"}) == [Item("b.sql", "y")];
  }

  /**
   The ledger records `b.sql` for another project, but the iteration stops
   before delivering that row and no error is reported: `b.sql` runs again
   and is recorded a second time, for this project.
   */
  lemma LostRowRunsAgain<S(!new)>(env: Env<S>, cfg: Config, st: Store<S>, other: string)
    requires other != cfg.project
    requires cfg.tableName in st.tables && st.tables[cfg.tableName] == {Row(other, "b.sql")}
    requires forall s, op :: env.fails(s, op) <==> op == Next(SelectSql(cfg.tableName), Row(other, "b.sql"))
    requires AcceptsScripts(env)
    ensures var r := DoUpgrade(env, cfg, st, [Item("b.sql", "y")]);
            && r.trace == [Script("b.sql"), Record(Row(cfg.project, "b.sql"))]
            && r.committed
            && Rows(r.store, cfg.tableName) == {Row(other, "b.sql"), Row(cfg.project, "b.sql")}
  {
    var items := [Item("b.sql", "y")];
    assert RowsRead(env, st, cfg.tableName) == {};
    assert Pending(items, {}) == items;
    assert RowsOf(cfg.project, items) == {Row(cfg.project, "b.sql")};
  }

  /**
   Two items named `x.sql`, a reliable database: both scripts run, the
   second insert clashes with the first, and the run is rolled back.
   */
  lemma DuplicateRunsTwice<S(!new)>(env: Env<S>, cfg: Config, st: Store<S>)
    requires Reliable(env) && AcceptsScripts(env)
    requires cfg.tableName in st.tables && st.tables[cfg.tableName] == {}
    ensures var r := DoUpgrade(env, cfg, st, [Item("x.sql", "a"), Item("x.sql", "b")]);
            && r.trace == [Script("x.sql"), Record(Row(cfg.project, "x.sql")), Script("x.sql"), Record(Row(cfg.project, "x.sql"))]
            && r.status == Err(RecordFailed("x.sql"))
            && r.store == st
  {
    var items := [Item("x.sql", "a"), Item("x.sql", "b")];
    assert items[1..] == [Item("x.sql", "b")];
  }
}

=== FILE: sql.dfy ===
/**
 The three ledger statements the reconciler builds by splicing the configured
 table name into fixed SQL text. The name is not quoted or checked, so the
 lemmas below say exactly how much of the statement the name determines.
 */
module Sql {

  const SelectPrefix := "SELECT * FROM "
  const SelectSuffix := " ORDER BY filename"

  const CreatePrefix := "CREATE TABLE "
  const CreateColumns := " (project varchar, filename varchar, migration_date timestamp with time zone DEFAULT now(), CONSTRAINT "
  const CreateKey := "_pk PRIMARY KEY (project, filename));"

  const InsertPrefix := "INSERT INTO "
  const InsertSuffix := " (project, filename) VALUES ($1, $2)"

  /** The probe and the ledger read: every row of the table, by filename. */
  function SelectSql(table: string): string
  {
    SelectPrefix + table + SelectSuffix
  }

  /** The ledger's DDL; the primary-key constraint is named after the table. */
  function CreateSql(table: string): string
  {
    CreatePrefix + table + CreateColumns + table + CreateKey
  }

  /** The ledger insert; project and filename are bound parameters $1 and $2. */
  function InsertSql(table: string): string
  {
    InsertPrefix + table + InsertSuffix
  }

  /**
   The probe text is the fixed prefix, the table name verbatim, and the fixed
   suffix: whatever characters the name holds (quotes, semicolons, further
   statements) land in the statement unchanged.
   */
  lemma {:induction false} SelectSplicesName(t: string)
    ensures |SelectSql(t)| == |SelectPrefix| + |t| + |SelectSuffix|
    ensures SelectSql(t)[..|SelectPrefix|] == SelectPrefix
    ensures SelectSql(t)[|SelectPrefix|..|SelectPrefix| + |t|] == t
    ensures SelectSql(t)[|SelectPrefix| + |t|..] == SelectSuffix
  {
    var s := SelectSql(t);
    assert s == SelectPrefix + (t + SelectSuffix);
    assert (t + SelectSuffix)[..|t|] == t;
    assert s == (SelectPrefix + t) + SelectSuffix;
  }

  /** Likewise for the ledger insert. */
  lemma {:induction false} InsertSplicesName(t: string)
    ensures |InsertSql(t)| == |InsertPrefix| + |t| + |InsertSuffix|
    ensures InsertSql(t)[..|InsertPrefix|] == InsertPrefix
    ensures InsertSql(t)[|InsertPrefix|..|InsertPrefix| + |t|] == t
    ensures InsertSql(t)[|InsertPrefix| + |t|..] == InsertSuffix
  {
    var s := InsertSql(t);
    assert s == InsertPrefix + (t + InsertSuffix);
    assert (t + InsertSuffix)[..|t|] == t;
    assert s == (InsertPrefix + t) + InsertSuffix;
  }

  /** Hence the probe text names its table: two tables never share a SELECT. */
  lemma {:induction false} SelectNamesTable(t1: string, t2: string)
    requires SelectSql(t1) == SelectSql(t2)
    ensures t1 == t2
  {
    SelectSplicesName(t1);
    SelectSplicesName(t2);
  }

  /** Likewise for the ledger insert. */
  lemma {:induction false} InsertNamesTable(t1: string, t2: string)
    requires InsertSql(t1) == InsertSql(t2)
    ensures t1 == t2
  {
    InsertSplicesName(t1);
    InsertSplicesName(t2);
  }

  /** The DDL names the table right after `CREATE TABLE ` and names the key `<table>_pk`. */
  lemma {:induction false} CreateNamesTableAndKey(t: string)
    ensures CreateSql(t)[..|CreatePrefix| + |t|] == CreatePrefix + t
    ensures CreateSql(t)[|CreateSql(t)| - |t| - |CreateKey|..] == t + "_pk PRIMARY KEY (project, filename));"
  {
    var s := CreateSql(t);
    assert s == (CreatePrefix + t) + (CreateColumns + t + CreateKey);
    assert s == (CreatePrefix + t + CreateColumns) + (t + CreateKey);
  }
}

=== FILE: store.dfy ===
/**
 An abstract database as the reconciler sees it through its connection handle:
 named ledger tables holding (project, filename) rows, and the rest of the
 schema as an opaque value `S` that only migration scripts change. Every
 statement the reconciler issues may fail for reasons outside its control
 (permissions, a lost connection); those failures come from the oracle
 `Env.fails`, while the failures the ledger's own definition forces (a
 missing table, a duplicate primary key) are decided here.
 */
module Store {
  import opened Sql

  datatype Option<T> = None | Some(value: T)

  /** One ledger row; the pair is the table's primary key. */
  datatype Row = Row(project: string, filename: string)

  /** Ledger tables by name (a name that is absent has not been created) and the opaque schema. */
  datatype Store<S> = Store(tables: map<string, set<Row>>, schema: S)

  /** A call on the connection or on the transaction, as the failure oracle sees it. */
  datatype Op =
    | Exec(sql: string, args: seq<string>)   // `Exec` of a statement with bound arguments
    | Query(sql: string)                     // `Query` returning rows
    | Next(sql: string, row: Row)            // advancing a query's cursor onto `row`
    | Scan(sql: string)                      // reading the rows of a query
    | Begin
    | Commit

  /**
   The environment of one run: `run` executes a migration script's text
   against the schema (None when the database rejects it), and `fails` says
   whether a ledger-side call fails in a given state for an outside reason.
   */
  datatype Env<!S> = Env(run: (S, string) -> Option<S>, fails: (Store<S>, Op) -> bool)

  /** The rows of `table`, or none when the table does not exist. */
  function Rows<S>(st: Store<S>, table: string): set<Row>
  {
    if table in st.tables then st.tables[table] else {}
  }

  /**
   The rows of `table` that iterating `SELECT * FROM table` delivers. A
   failed advance ends the iteration without an error being reported, so any
   row whose advance fails is simply missing from what the reconciler reads.
   */
  function RowsRead<S>(env: Env<S>, st: Store<S>, table: string): (read: set<Row>)
    ensures read <= Rows(st, table)
    ensures forall r :: r in read <==> r in Rows(st, table) && !env.fails(st, Next(SelectSql(table), r))
    ensures read == Rows(st, table) <==> ReadsAll(env, st, table)
  {
    set r | r in Rows(st, table) && !env.fails(st, Next(SelectSql(table), r))
  }

  /** Iterating the ledger delivers every row: no advance fails. */
  predicate ReadsAll<S>(env: Env<S>, st: Store<S>, table: string)
  {
    forall r :: r in Rows(st, table) ==> !env.fails(st, Next(SelectSql(table), r))
  }

  /** The filenames recorded in a set of rows, whatever their project. */
  function Filenames(rows: set<Row>): (names: set<string>)
    ensures forall r :: r in rows ==> r.filename in names
    ensures forall n :: n in names ==> exists r :: r in rows && r.filename == n
  {
    set r | r in rows :: r.filename
  }

  /** The store with `table` present, created empty if it was absent. */
  function Bootstrapped<S>(st: Store<S>, table: string): (b: Store<S>)
    ensures table in b.tables && b.tables[table] == Rows(st, table)
    ensures b.schema == st.schema
    ensures forall u :: u != table ==> (u in b.tables <==> u in st.tables)
    ensures forall u :: u != table && u in st.tables ==> b.tables[u] == st.tables[u]
  {
    if table in st.tables then st else st.(tables := st.tables[table := {}])
  }

  /** `SELECT * FROM table`: fails when the table is missing or the oracle says so. */
  predicate ProbeOk<S>(env: Env<S>, st: Store<S>, table: string)
    ensures table !in st.tables ==> !ProbeOk(env, st, table)
    ensures table in st.tables ==> (ProbeOk(env, st, table) <==> !env.fails(st, Exec(SelectSql(table), [])))
  {
    table in st.tables && !env.fails(st, Exec(SelectSql(table), []))
  }

  /**
   `INSERT INTO table (project, filename) VALUES ($1, $2)`: fails when the
   table is missing, when the row is already there (the primary key), or
   when the oracle says so; otherwise adds exactly that row.
   */
  function InsertRow<S>(env: Env<S>, st: Store<S>, table: string, row: Row): (r: Option<Store<S>>)
    ensures r.Some? <==>
      && table in st.tables
      && row !in st.tables[table]
      && !env.fails(st, Exec(InsertSql(table), [row.project, row.filename]))
    ensures r.Some? ==>
      && r.value.tables == st.tables[table := st.tables[table] + {row}]
      && r.value.schema == st.schema
  {
    if table !in st.tables || row in st.tables[table]
       || env.fails(st, Exec(InsertSql(table), [row.project, row.filename]))
    then None
    else Some(st.(tables := st.tables[table := st.tables[table] + {row}]))
  }

  /** Runs a migration script: only the schema changes, the ledger tables do not. */
  function RunScript<S>(env: Env<S>, st: Store<S>, content: string): (r: Option<Store<S>>)
    ensures r.Some? <==> env.run(st.schema, content).Some?
    ensures r.Some? ==> r.value.tables == st.tables && r.value.schema == env.run(st.schema, content).value
  {
    match env.run(st.schema, content)
    case None => None
    case Some(s) => Some(st.(schema := s))
  }
}
